=== FILE: README.md ===
# GLCanvas control logic in Dafny

This project models the discrete control logic of the U++ OpenGL widget
`GLCanvas` (file `GLCanvas/GLCanvas.cpp`). The OpenGL, dialog, encoder and
trackball calls are replaced by inputs and recorded outputs. It proves
properties of:

- the axis-view toggle `View`. It remembers the last `(x, y, z)` request
  and a `sign` that flips on a repeated request. `sign` is never passed to
  the trackball, because the argument is commented out at the call site.
- the framebuffer readback post-processing in `GetImage`. Rows are
  swapped to flip the image vertically, then every alpha channel is set
  to 255. A read error gives a null image.
- the keyboard handler `Key`, and the context-menu accelerators that
  start the same commands.
- image-format selection in `OnTypeImage` and `SaveToFile`: dialog type
  index to extension and back, extension to encoder, the `.jpeg`
  asymmetry, and how `defaultFileName` is kept.
- `SaveToClipboard`.
- `ZoomToFit`, which chooses the largest extent, and the argument
  computation of `SetCamera`: aspect with its zero-height guard, eye at
  half the height, near and far planes.
- `Canvas`, which puts these together. It holds the state kept between
  calls and the trackball calls each command makes.

Modules, one per file: `Wrappers` (wrappers.dfy), `AxisView`
(view_toggle.dfy), `Readback` (readback.dfy), `ImageFormat`
(image_format.dfy), `SaveImage` (save_image.dfy), `KeyDispatch`
(key_dispatch.dfy), `Camera` (camera.dfy), `Canvas` (canvas.dfy).

How the foreign calls are represented:

- `glReadPixels` and `glGetError` are an input: a `cy x cx` grid of
  pixels and an error flag.
- The file dialog is an input, either `Cancel` or `Accept(file)`. The
  dialog set-up the canvas prepares is an output.
- The encoders are an output: the chosen `Encoder` and file.
- The canvas's calls to the trackball's `ViewXYZ` and `Zoom` are recorded
  as `TrackballCall`s. So is the canvas's own `SetZoomDistance(distance)`,
  which is where the trackball's zoom-angle setter is reached. The setter
  call itself is not modelled.
- A `Refresh()` redraw request is recorded as a flag in the command's
  outcome. So are the messages of fit, save and copy.
- A U++ `Null` image is `None`. A `Null` file name is `None` or the
  empty path, because U++ treats the empty `String` as `Null`.
- File names are kept already split into folder, title and extension.

## Model

| member | source | states |
|---|---|---|
| AxisView.View | GLCanvas/GLCanvas.cpp:248-256 | a repeated request negates `sign` and a different one sets it to true. Every call remembers the request and forwards exactly `(x, y, z)` to `ViewXYZ`. |
| AxisView.ForwardIgnoresMemory | GLCanvas/GLCanvas.cpp:254 | the arguments forwarded to `ViewXYZ` are the same whatever `sign` and last request are remembered. The toggle never reaches the trackball. |
| AxisView.RepeatTwiceRestores | GLCanvas/GLCanvas.cpp:249-250 | if the remembered request is repeated twice, the memory returns to its original value, including `sign`. |
| AxisView.RepeatedRequestForwardsSameView | GLCanvas/GLCanvas.cpp:249-254 | two consecutive identical requests leave different `sign` values but forward identical `ViewXYZ` arguments. |
| AxisView.DifferingRequestResets | GLCanvas/GLCanvas.cpp:251-253 | in the sequence a, b, a with b different from a, the third call ends with `sign` true and forwards the same arguments as the first. |
| AxisView.MenuViews | GLCanvas/GLCanvas.cpp:44-47 | the four context-menu views are pairwise distinct. The view along X, Y or Z leaves exactly that axis out, and the isometric view includes all three. |
| AxisView.MenuViewsToggle | GLCanvas/GLCanvas.cpp:44-47 | choosing one of the four context-menu views and then another resets `sign` to true. Choosing the same view again flips it. The trackball is asked for the second entry's axes only. |
| AxisView.ReplayForwardsRequests | GLCanvas/GLCanvas.cpp:248-254 | over any run of requests, the `ViewXYZ` call log equals the request sequence and the memory ends on the last request. |
| AxisView.RepeatToggles | GLCanvas/GLCanvas.cpp:249-252 | after k identical requests, `sign` records the parity of k. It starts from true if the remembered request differed, or from the old `sign` if it was the same. |
| Readback.Opaque | GLCanvas/GLCanvas.cpp:102 | the alpha pass sets alpha to 255 and leaves R, G and B unchanged. |
| Readback.Reverse | GLCanvas/GLCanvas.cpp:94-98 | the reference vertical flip: output row i is input row len-1-i, and the length is kept. |
| Readback.ReverseInvolution | GLCanvas/GLCanvas.cpp:94-98 | flipping twice restores the buffer. |
| Readback.FlipIsReverse | GLCanvas/GLCanvas.cpp:94-98 | a buffer whose row y is input row cy-1-y is the reference flip, and flipping it again gives the input back. |
| Readback.FlipRows | GLCanvas/GLCanvas.cpp:92-98 | after the swap loop, output row y is input row cy-1-y for every y, and the row count is kept. The middle row of an odd height is untouched. |
| Readback.SetOpaque | GLCanvas/GLCanvas.cpp:100-102 | the grid keeps its dimensions, and every pixel equals the input pixel with alpha 255. |
| Readback.GetImage | GLCanvas/GLCanvas.cpp:83-105 | the image is null exactly on a read error, with no post-processing, or for a 0 x 0 canvas, which U++ reads as a null image. Otherwise the image has the same size, and pixel (y, x) is the opaque version of read pixel (cy-1-y, x). |
| ImageFormat.TypeIndexExt | GLCanvas/GLCanvas.cpp:118-128 | only type indices 0, 1 and 2 force an extension, and it is one of `.jpg`, `.png` or `.pdf`. |
| ImageFormat.OnTypeImage | GLCanvas/GLCanvas.cpp:118-128 | a valid type keeps the title, drops the folder and forces that type's extension. Any other type leaves the file unchanged. |
| ImageFormat.ExtTypeIndex | GLCanvas/GLCanvas.cpp:153-162 | the active type is always a valid index. It is 1 exactly for `.png` and 2 exactly for `.pdf`, and every other extension falls back to 0. |
| ImageFormat.EncoderFor | GLCanvas/GLCanvas.cpp:174-188 | `.png` selects the PNG encoder, `.jpg` the JPG encoder and `.pdf` the PDF drawing. "Format not found" is reported exactly for every other extension, and the message carries that extension. |
| ImageFormat.TypeIndexRoundTrip | GLCanvas/GLCanvas.cpp:122-161 | index to extension and back is the identity for indices 0, 1 and 2, and each extension has an encoder. |
| ImageFormat.ExtRoundTrip | GLCanvas/GLCanvas.cpp:122-161 | extension to index and back is the identity for `.jpg`, `.png` and `.pdf`. |
| ImageFormat.JpegAsymmetry | GLCanvas/GLCanvas.cpp:156-188 | `.jpeg` selects type 0, the jpeg type, but the encoder dispatch gives "format not found" for it. |
| ImageFormat.OnTypeImageHasEncoder | GLCanvas/GLCanvas.cpp:118-188 | every extension forced by choosing a dialog type reaches an encoder and maps back to that type. |
| SaveImage.SetupDialog | GLCanvas/GLCanvas.cpp:148-164 | the dialog proposes `defaultFileName`, with that name's folder as the active directory. When the name is empty it proposes "Mesh view.jpg" with no folder. The default extension is the proposed file's extension. The active type is the extension's type index: it matches the extension when that is one of the three offered, and is 0 otherwise. |
| SaveImage.SaveToFile | GLCanvas/GLCanvas.cpp:130-189 | a null image does nothing and leaves `defaultFileName` unchanged. Otherwise a dialog, set up from `defaultFileName`, is shown exactly when the name is Null (missing or empty). Cancelling it keeps `defaultFileName`. A given name, or the name accepted in the dialog, is always dispatched: it becomes `defaultFileName`, and its extension selects the encoder. |
| SaveImage.EmptyNameOpensDialog | GLCanvas/GLCanvas.cpp:139 | an empty file name behaves exactly like a missing one: it opens the dialog. |
| SaveImage.SaveRemembersName | GLCanvas/GLCanvas.cpp:148-172 | after a save that reached the encoder dispatch, the next `SaveToFile(Null)` shows the dialog. It proposes the file just saved whenever that name is not empty. |
| SaveImage.JpegDefaultIsNotWritten | GLCanvas/GLCanvas.cpp:148-188 | if a `.jpeg` name is remembered and accepted unchanged, the dialog shows the jpeg type but the save ends in "format not found". |
| SaveImage.SaveToClipboard | GLCanvas/GLCanvas.cpp:107-116 | a null image only raises the message. Otherwise exactly the image is written to the clipboard. |
| SaveImage.ClipboardAgreesWithSave | GLCanvas/GLCanvas.cpp:107-137 | copying refuses exactly the readbacks that saving refuses, whatever name and dialog answer the save would use. |
| KeyDispatch.Key | GLCanvas/GLCanvas.cpp:53-67 | `Key` returns true exactly when the key is one of the seven shortcuts, and then exactly one command is started. Ctrl+F always fits, and zoom steps are ±200. |
| KeyDispatch.KeyDispatchExact | GLCanvas/GLCanvas.cpp:53-67 | with distinct codes: Ctrl+F fits; Ctrl+Add and Ctrl+Plus zoom by 200; Ctrl+Subtract and Ctrl+Minus zoom by -200; Ctrl+C copies; Ctrl+S calls `SaveToFile(Null)`. |
| KeyDispatch.MenuShortcuts | GLCanvas/GLCanvas.cpp:41-50 | the context menu has five accelerated entries, each on one of `Key`'s shortcut codes. Together they offer exactly fit, zoom +200, zoom -200, copy and save. Exactly the copy and save entries run through `ExecuteGL`. With distinct codes, each entry's key starts the entry's command through `Key`. |
| KeyDispatch.MenuAgreesWithKey | GLCanvas/GLCanvas.cpp:41-67 | each accelerated context-menu entry starts, through `Key`, the same command as the entry. The menu wraps an entry in `ExecuteGL` exactly when its key makes `Key` copy or save, and `Key` runs those commands without it. |
| Camera.ZoomToFit | GLCanvas/GLCanvas.cpp:69-77 | with no model loaded, nothing is requested. Otherwise the requested distance is 2·m, where m is one of maxX, maxY, maxZ and at least each of them. |
| Camera.ZoomToFitSymmetric | GLCanvas/GLCanvas.cpp:74-75 | the requested distance does not depend on the order of the three extents. |
| Camera.ZoomToFitMonotone | GLCanvas/GLCanvas.cpp:74-75 | larger extents never request a shorter distance. |
| Camera.Aspect | GLCanvas/GLCanvas.cpp:236 | a zero height gives aspect 1. Otherwise aspect times height equals width. |
| Camera.SetCamera | GLCanvas/GLCanvas.cpp:232-241 | the field of view is the trackball's zoom angle, aspect is width/height (1 at height 0), and the near and far planes are 1 and 10000. The eye is on the Z axis at half the height, looking at the origin with +Y up. |
| Camera.CameraScales | GLCanvas/GLCanvas.cpp:236-240 | scaling the canvas by k > 0 keeps the projection and moves the eye by the factor k. |
| Canvas.CanvasView | GLCanvas/GLCanvas.cpp:248-256 | a view request makes exactly one `ViewXYZ` call, carrying the request, and asks for a redraw. The axis memory moves on as `View` moves it, and no other canvas state changes. |
| Canvas.Execute | GLCanvas/GLCanvas.cpp:53-81 | only saving changes the canvas state, and then only `defaultFileName`. The save result is that of `SaveToFile` on the current `defaultFileName`. A zoom makes exactly one trackball `Zoom` call. Fit reports the `ZoomToFit` outcome. With no model loaded that is the "No model is loaded" message and nothing else. With a model it makes one `SetZoomDistance` call with the `ZoomToFit` distance. Only a fit that found a model asks for a redraw: zoom, copy and save do not. Only copy touches the clipboard, with the `SaveToClipboard` effect. |
| Canvas.PressKey | GLCanvas/GLCanvas.cpp:53-67 | an unbound key returns false and changes nothing. A key is handled exactly when it is a shortcut, and then it runs `Key`'s command. |
| Canvas.ZoomKeyReachesTrackball | GLCanvas/GLCanvas.cpp:56-81 | any key that `Key` maps to a zoom makes exactly one trackball `Zoom` call with that step. It changes nothing else and does not ask for a redraw. |
| Canvas.ZoomKeysOpposite | GLCanvas/GLCanvas.cpp:56-59 | Ctrl+Add and Ctrl+Plus make a trackball zoom call of +200. Ctrl+Subtract and Ctrl+Minus make one of -200. |
| Canvas.FitKeyReports | GLCanvas/GLCanvas.cpp:54-77 | Ctrl+F is handled. With no model loaded it reports "No model is loaded", so its outcome differs from an unbound key's. With a model it asks for a redraw. |
| Canvas.FailedSaveKeepsState | GLCanvas/GLCanvas.cpp:130-169 | Ctrl+S with no readable image, or with a cancelled dialog, is handled but leaves the canvas state unchanged. |

## Left out

- The quaternion trackball (`TrackBall::MouseEvent`, `Matrix`, `Zoom`, `ViewXYZ`, `Reshape`). GLCanvas/trackball.h only declares it, and it is floating-point math. Its calls are recorded as `TrackballCall`s. The trackball keeps a private `sign` of its own, so whether mirrored views come from there cannot be seen here. The model only shows that the canvas's `sign` is never passed on.
- `SetZoomDistance` converts a distance to an angle with `atan2`. `ZoomToFit` is modelled up to the distance it passes.
- `gluPerspective` and `gluLookAt` are modelled by their arguments. The `float` rounding of the aspect and the eye height is not modelled, because extents and ratios are exact reals. NaN and infinite extents are not modelled.
- `Paint*` helpers, `OnPaint`, `Layout` and `SetUpLighting`: GL drawing and state calls. Their only decisions are `OnPaint`'s enabled guard and `PaintSurface0`'s `showMesh` and `showNormals` flags. `Layout` and `OnPaint` re-run `SetCamera`, which is modelled on its own. They also call the trackball's `Reshape` and `Matrix`, which are not part of this model.
- `MouseEvent` (context menu on right button up, focus on left button down): event plumbing around the unseen trackball.
- The file dialog, the PNG/JPG/PDF encoders, `WriteClipboardImage`, `Exclamation`, `GuiLock` and `WaitCursor`. Their outcomes are inputs and their effects are outputs. The dialog's `DefaultExt` completion and its `OnTypeImage` callbacks are folded into the accepted file.
- The `GetFileExt`, `ForceExt`, `GetFileName` and `GetFileFolder` string helpers. They are not part of this model, so names are kept split into folder, title and extension.
- KeyDispatch.Key: the numeric values of the U++ key constants are not part of this model, so they are a parameter record. The menu's `K_CTRL|K_ADD` and `K_CTRL|K_SUBTRACT` are taken to equal `K_CTRL_ADD` and `K_CTRL_SUBTRACT`.
- AxisView.View: the initial values of `lastx`, `lasty`, `lastz` and `sign` come from GLCanvas.h, which is not part of this model. Every result holds for an arbitrary starting memory.
- Readback.GetImage: the BGRA byte order of the readback is not modelled, because pixels are records. The buffer is assumed to hold exactly `cy` rows of `cx` pixels, as `ImageBuffer ib(sz)` allocates it.
- Readback.GetImage: the 0 x 0 case follows U++'s `Image` null test, which counts an image as null when both sizes are 0. That library code is not part of this model.
- KeyDispatch.MenuAgreesWithKey: `ExecuteGL` itself is not modelled. It makes the GL context current before the readback. The model records which path uses it, but both paths read the same pixels here.
- SaveImage.SaveRemembersName: an accepted dialog with an empty name would be remembered as `Null`, so the next dialog would propose "Mesh view.jpg". The file dialog does not accept an empty name, so this only narrows the lemma.
- SaveImage.SaveToFile: the PDF branch's page size (`GetSize()`) and the JPEG quality are not modelled.

=== FILE: camera.dfy ===
/**
 Fit-to-data and the camera set-up of the canvas (`ZoomToFit`, `SetCamera`).

 Extents and viewport ratios are exact reals here: the `double`/`float`
 rounding of the source, the `atan2` in `SetZoomDistance` and the GLU calls
 themselves are not modelled. `SetCamera` is described by the arguments it
 hands to `gluPerspective` and `gluLookAt`; `ZoomToFit` by the distance it
 hands to `SetZoomDistance`.
 */
module Camera {
  import opened Wrappers

  /** The bounding extents of the loaded model (`env->maxX` and so on). */
  datatype Extents = Extents(maxX: real, maxY: real, maxZ: real)

  /** `ZoomToFit` either reports that no model is loaded (and changes
      nothing) or asks `SetZoomDistance` for a distance. */
  datatype FitOutcome = NoModelLoaded | ZoomDistance(distance: real)

  /** The larger of two values, as U++ `max` picks it. */
  function Max(a: real, b: real): real
  {
    if a > b then a else b
  }

  /** `env == None` is the null `env` pointer. */
  function ZoomToFit(env: Option<Extents>): (r: FitOutcome)
    ensures r.NoModelLoaded? <==> env.None?
    ensures r.ZoomDistance? ==>
              var e := env.value;
              (r.distance == 2.0 * e.maxX || r.distance == 2.0 * e.maxY || r.distance == 2.0 * e.maxZ) &&
              r.distance >= 2.0 * e.maxX && r.distance >= 2.0 * e.maxY && r.distance >= 2.0 * e.maxZ
  {
    match env
    case None => NoModelLoaded
    case Some(e) => ZoomDistance(2.0 * Max(Max(e.maxX, e.maxY), e.maxZ))
  }

  /** The requested distance does not depend on the order of the axes. */
  lemma ZoomToFitSymmetric(x: real, y: real, z: real)
    ensures ZoomToFit(Some(Extents(x, y, z))) == ZoomToFit(Some(Extents(y, z, x)))
    ensures ZoomToFit(Some(Extents(x, y, z))) == ZoomToFit(Some(Extents(y, x, z)))
  {
  }

  /** Growing any extent never asks for a shorter distance. */
  lemma ZoomToFitMonotone(e: Extents, f: Extents)
    requires e.maxX <= f.maxX && e.maxY <= f.maxY && e.maxZ <= f.maxZ
    ensures ZoomToFit(Some(e)).distance <= ZoomToFit(Some(f)).distance
  {
  }

  datatype Vec3 = Vec3(x: real, y: real, z: real)

  /** Arguments of `gluPerspective(fovy, aspect, zNear, zFar)`. */
  datatype Perspective = Perspective(fovy: real, aspect: real, zNear: real, zFar: real)

  /** Arguments of `gluLookAt(eye, center, up)`. */
  datatype LookAt = LookAt(eye: Vec3, center: Vec3, up: Vec3)

  datatype CameraSetup = CameraSetup(projection: Perspective, view: LookAt)

  const NearPlane: real := 1.0
  const FarPlane: real := 10000.0

  /** Width over height, with a zero height read as aspect 1. */
  function Aspect(cx: int, cy: int): (r: real)
    ensures cy == 0 ==> r == 1.0
    ensures cy != 0 ==> r * cy as real == cx as real
  {
    if cy == 0 then 1.0 else cx as real / cy as real
  }

  /** `SetCamera` for the trackball's zoom angle and the canvas size. */
  function SetCamera(zoomAngle: real, cx: int, cy: int): (r: CameraSetup)
    ensures r.projection.fovy == zoomAngle
    ensures cy == 0 ==> r.projection.aspect == 1.0
    ensures cy != 0 ==> r.projection.aspect * cy as real == cx as real
    ensures r.projection.zNear == NearPlane && r.projection.zFar == FarPlane
    ensures r.view.eye.x == 0.0 && r.view.eye.y == 0.0 && 2.0 * r.view.eye.z == cy as real
    ensures r.view.center == Vec3(0.0, 0.0, 0.0) && r.view.up == Vec3(0.0, 1.0, 0.0)
  {
    CameraSetup(Perspective(zoomAngle, Aspect(cx, cy), NearPlane, FarPlane),
                LookAt(Vec3(0.0, 0.0, cy as real / 2.0), Vec3(0.0, 0.0, 0.0), Vec3(0.0, 1.0, 0.0)))
  }

  /** The projection depends on the canvas only through its shape: scaling
      the canvas keeps the aspect, while the eye moves with the height. */
  lemma CameraScales(zoomAngle: real, cx: int, cy: int, k: int)
    requires k > 0
    ensures SetCamera(zoomAngle, k * cx, k * cy).projection == SetCamera(zoomAngle, cx, cy).projection
    ensures SetCamera(zoomAngle, k * cx, k * cy).view.eye.z == k as real * SetCamera(zoomAngle, cx, cy).view.eye.z
  {
  }
}

=== FILE: canvas.dfy ===
/**
 The canvas as a whole: the state it keeps between calls, the calls it
 makes on its trackball, and what each command of the keyboard handler or
 context menu does to them. The trackball itself is not part of this
 model: the canvas's calls to its `ViewXYZ` and `Zoom`, and the canvas's own
 `SetZoomDistance` (which turns a distance into the trackball's zoom angle),
 are recorded calls.
 */
module Canvas {
  import opened Wrappers
  import opened AxisView
  import opened ImageFormat
  import opened SaveImage
  import opened KeyDispatch
  import Camera

  /** Calls the canvas makes on its trackball, and `SetZoomDistance`, the
      canvas's own step that ends in the trackball's zoom-angle setter. */
  datatype TrackballCall = ViewXYZ(axes: Axes) | ZoomBy(delta: int) | SetZoomDistance(distance: real)

  /** The canvas fields the modelled operations read and write. */
  datatype CanvasState = CanvasState(axes: AxisMemory, defaultFileName: Option<FilePath>)

  /** What the collaborators supply when a command runs: the loaded model's
      extents, the readback image and the user's answer to a save dialog. */
  datatype World = World(env: Option<Camera.Extents>, image: Option<Image>, response: Response)

  /** Everything one command does that the model can see: the new state,
      the trackball calls, what fit-to-data, saving or copying reported
      (`fit == Some(NoModelLoaded)` is the "No model is loaded" message),
      and whether the canvas asked for a redraw with `Refresh`. */
  datatype Outcome = Outcome(state: CanvasState, calls: seq<TrackballCall>,
                             fit: Option<Camera.FitOutcome>, save: Option<SaveResult>,
                             clipboard: Option<ClipboardEffect>, refresh: bool)

  /** Nothing happens at all. */
  function Idle(s: CanvasState): Outcome
  {
    Outcome(s, [], None, None, None, false)
  }

  /** `GLCanvas::View` on the canvas: the memory moves on, one `ViewXYZ`
      call carries exactly the request. */
  function CanvasView(s: CanvasState, req: Axes): (r: Outcome)
    ensures r.calls == [ViewXYZ(req)]
    ensures r.state.defaultFileName == s.defaultFileName
    ensures r.state.axes == View(s.axes, req).memory
    ensures r.state.axes.last == req
    ensures r.fit.None? && r.save.None? && r.clipboard.None?
    ensures r.refresh
  {
    var step := View(s.axes, req);
    Outcome(s.(axes := step.memory), [ViewXYZ(step.forwarded)], None, None, None, true)
  }

  /** One command of `Key` or of the context menu. Only a fit that found a
      model asks for a redraw: `Zoom`, copy and save do not call `Refresh`. */
  function Execute(s: CanvasState, cmd: Command, w: World): (r: Outcome)
    ensures r.state.axes == s.axes
    ensures r.refresh <==> cmd.FitToData? && w.env.Some?
    ensures r.fit.Some? <==> cmd.FitToData?
    ensures cmd.FitToData? ==> r.fit == Some(Camera.ZoomToFit(w.env))
    ensures cmd.FitToData? && w.env.None? ==> r == Outcome(s, [], Some(Camera.NoModelLoaded), None, None, false)
    ensures !cmd.SaveImage? ==> r.state == s && r.save.None?
    ensures cmd.Zoom? ==> r.calls == [ZoomBy(cmd.delta)]
    ensures cmd.FitToData? ==> (|r.calls| == 0 <==> w.env.None?)
    ensures cmd.FitToData? && w.env.Some? ==> r.calls == [SetZoomDistance(Camera.ZoomToFit(w.env).distance)]
    ensures cmd.CopyToClipboard? <==> r.clipboard.Some?
    ensures cmd.CopyToClipboard? ==> r.calls == [] && r.clipboard == Some(SaveToClipboard(w.image))
    ensures cmd.SaveImage? ==>
              r.calls == [] && r.save == Some(SaveToFile(w.image, cmd.fileName, s.defaultFileName, w.response)) &&
              r.state.defaultFileName == r.save.value.defaultFileName
  {
    match cmd
    case FitToData =>
      var fit := Camera.ZoomToFit(w.env);
      if fit.NoModelLoaded? then Outcome(s, [], Some(fit), None, None, false)
      else Outcome(s, [SetZoomDistance(fit.distance)], Some(fit), None, None, true)
    case Zoom(delta) => Outcome(s, [ZoomBy(delta)], None, None, None, false)
    case CopyToClipboard => Outcome(s, [], None, None, Some(SaveToClipboard(w.image)), false)
    case SaveImage(fileName) =>
      var res := SaveToFile(w.image, fileName, s.defaultFileName, w.response);
      Outcome(s.(defaultFileName := res.defaultFileName), [], None, Some(res), None, false)
  }

  /** A key press: unbound keys do nothing at all. */
  function PressKey(codes: KeyCodes, s: CanvasState, key: dword, w: World): (r: (bool, Outcome))
    ensures !r.0 ==> r.1 == Idle(s)
    ensures r.0 <==> key in Shortcuts(codes)
    ensures r.0 ==> r.1 == Execute(s, Key(codes, key).command.value, w)
  {
    var k := Key(codes, key);
    match k.command
    case None => (k.handled, Idle(s))
    case Some(cmd) => (k.handled, Execute(s, cmd, w))
  }

  /** Any key that `Key` maps to a zoom asks the trackball for exactly that
      step and nothing else, not even a redraw. */
  lemma ZoomKeyReachesTrackball(codes: KeyCodes, s: CanvasState, key: dword, w: World)
    requires Key(codes, key).command.Some? && Key(codes, key).command.value.Zoom?
    ensures PressKey(codes, s, key, w).1 == Outcome(s, [ZoomBy(Key(codes, key).command.value.delta)], None, None, None, false)
  {
  }

  /** The four zoom shortcuts ask the trackball for opposite steps: the two
      zoom-in keys for `+ZoomStep`, the two zoom-out keys for `-ZoomStep`. */
  lemma ZoomKeysOpposite(codes: KeyCodes, s: CanvasState, w: World)
    requires Distinct(codes)
    ensures PressKey(codes, s, codes.ctrlAdd, w).1.calls == [ZoomBy(ZoomStep)]
    ensures PressKey(codes, s, codes.ctrlPlus, w).1.calls == [ZoomBy(ZoomStep)]
    ensures PressKey(codes, s, codes.ctrlSubtract, w).1.calls == [ZoomBy(-ZoomStep)]
    ensures PressKey(codes, s, codes.ctrlMinus, w).1.calls == [ZoomBy(-ZoomStep)]
  {
    KeyDispatchExact(codes);
  }

  /** Ctrl+F with no model loaded is handled and reported, unlike an
      unbound key; with a model it asks for the fitting distance and a
      redraw. */
  lemma FitKeyReports(codes: KeyCodes, s: CanvasState, w: World)
    requires Distinct(codes)
    ensures PressKey(codes, s, codes.ctrlF, w).0
    ensures w.env.None? ==> PressKey(codes, s, codes.ctrlF, w).1.fit == Some(Camera.NoModelLoaded)
    ensures w.env.None? ==> PressKey(codes, s, codes.ctrlF, w).1 != Idle(s)
    ensures w.env.Some? ==> PressKey(codes, s, codes.ctrlF, w).1.refresh
  {
    KeyDispatchExact(codes);
  }

  /** Ctrl+S with a dialog the user cancels, or with no readable image,
      leaves the canvas exactly as it was. */
  lemma FailedSaveKeepsState(codes: KeyCodes, s: CanvasState, w: World)
    requires Distinct(codes)
    requires w.image.None? || w.response.Cancel?
    ensures PressKey(codes, s, codes.ctrlS, w).0
    ensures PressKey(codes, s, codes.ctrlS, w).1.state == s
  {
    KeyDispatchExact(codes);
  }
}

=== FILE: image_format.dfy ===
/**
 Image-format selection around `SaveToFile` and `OnTypeImage`.

 File names are kept already split into folder, title and extension: the
 U++ helpers `GetFileExt`, `ForceExt`, `GetFileName` and `GetFileFolder` are
 not part of this model, and the split stands for what they extract.
 */
module ImageFormat {
  import opened Wrappers

  /** A file name as `folder`, `title` and `ext` (extension with its dot). */
  datatype FilePath = FilePath(folder: string, title: string, ext: string)

  /** The empty `String`. */
  const EmptyPath := FilePath("", "", "")

  /** U++ treats an empty `String` as `Null`: a missing name and the empty
      name are the same thing to `IsNull` and `IsEmpty`. */
  predicate IsNullName(n: Option<FilePath>)
  {
    n.None? || n.value == EmptyPath
  }

  /** The encoder the canvas picks for a file name, or "format not found". */
  datatype Encoder = PngEncoder | JpgEncoder | PdfDraw | FormatNotFound(ext: string)

  const Jpg: string := ".jpg"
  const Jpeg: string := ".jpeg"
  const Png: string := ".png"
  const Pdf: string := ".pdf"

  /** The three file types the save dialog offers, in its order. */
  const DialogTypeCount: nat := 3

  /** `OnTypeImage`: the extension forced on the dialog's file when the user
      picks type `id`; any other index leaves the file alone. */
  function TypeIndexExt(id: int): (r: Option<string>)
    ensures r.Some? <==> 0 <= id < DialogTypeCount
    ensures r.Some? ==> r.value in {Jpg, Png, Pdf}
  {
    if id == 0 then Some(Jpg)
    else if id == 1 then Some(Png)
    else if id == 2 then Some(Pdf)
    else None
  }

  /** The dialog's file after `OnTypeImage`: its folder is dropped
      (`GetFileName`) and the extension is forced. */
  function OnTypeImage(id: int, file: FilePath): (r: FilePath)
    ensures 0 <= id < DialogTypeCount ==> r.folder == "" && r.title == file.title
    ensures !(0 <= id < DialogTypeCount) ==> r == file
    ensures TypeIndexExt(id).Some? ==> r.ext == TypeIndexExt(id).value
  {
    match TypeIndexExt(id)
    case Some(ext) => FilePath("", file.title, ext)
    case None => file
  }

  /** The active dialog type `SaveToFile` picks from the proposed file's
      extension before showing the dialog: unknown extensions fall back to
      type 0. */
  function ExtTypeIndex(ext: string): (r: nat)
    ensures r < DialogTypeCount
    ensures r == 1 <==> ext == Png
    ensures r == 2 <==> ext == Pdf
  {
    if ext == Jpg || ext == Jpeg then 0
    else if ext == Png then 1
    else if ext == Pdf then 2
    else 0
  }

  /** The encoder `SaveToFile` dispatches to once the file name is known:
      exactly `.png`, `.jpg` and `.pdf` have an encoder. */
  function EncoderFor(ext: string): (r: Encoder)
    ensures ext == Png ==> r == PngEncoder
    ensures ext == Jpg ==> r == JpgEncoder
    ensures ext == Pdf ==> r == PdfDraw
    ensures r.FormatNotFound? <==> ext !in {Png, Jpg, Pdf}
    ensures r.FormatNotFound? ==> r.ext == ext
  {
    if ext == Png then PngEncoder
    else if ext == Jpg then JpgEncoder
    else if ext == Pdf then PdfDraw
    else FormatNotFound(ext)
  }

  /** Index to extension and back is the identity on the dialog's types,
      and the extension always has an encoder. */
  lemma TypeIndexRoundTrip(id: int)
    requires 0 <= id < DialogTypeCount
    ensures TypeIndexExt(id).Some?
    ensures ExtTypeIndex(TypeIndexExt(id).value) == id
    ensures !EncoderFor(TypeIndexExt(id).value).FormatNotFound?
  {
  }

  /** Extension to index and back is the identity on the three extensions
      the dialog offers. */
  lemma ExtRoundTrip(ext: string)
    requires ext in {Jpg, Png, Pdf}
    ensures TypeIndexExt(ExtTypeIndex(ext)) == Some(ext)
  {
  }

  /** `.jpeg` selects the jpeg dialog type but no encoder accepts it, so a
      file saved under that extension ends in "format not found". */
  lemma JpegAsymmetry()
    ensures ExtTypeIndex(Jpeg) == 0
    ensures TypeIndexExt(ExtTypeIndex(Jpeg)) == Some(Jpg)
    ensures EncoderFor(Jpeg) == FormatNotFound(Jpeg)
  {
  }

  /** Every extension the dialog can force through `OnTypeImage` reaches
      an encoder. */
  lemma OnTypeImageHasEncoder(id: int, file: FilePath)
    requires 0 <= id < DialogTypeCount
    ensures !EncoderFor(OnTypeImage(id, file).ext).FormatNotFound?
    ensures ExtTypeIndex(OnTypeImage(id, file).ext) == id
  {
  }
}

=== FILE: key_dispatch.dfy ===
/**
 Keyboard shortcuts of the canvas (`GLCanvas::Key`) and the context menu
 entries that carry the same accelerators (`GLCanvas::ContextMenu`).

 The numeric key constants live in a U++ header that is not part of this
 model, so they are a parameter: one field per shortcut code the canvas
 compares against. The menu's accelerator `K_CTRL|K_ADD` is taken to be the
 same code as `K_CTRL_ADD`, and likewise for subtract.
 */
module KeyDispatch {
  import opened Wrappers
  import opened ImageFormat

  /** A 32-bit `dword` key code. */
  newtype dword = x: int | 0 <= x < 0x1_0000_0000

  /** `K_CTRL_F`, `K_CTRL_ADD`, `K_CTRL|K_PLUS`, `K_CTRL_SUBTRACT`,
      `K_CTRL|K_MINUS`, `K_CTRL_C`, `K_CTRL_S`. */
  datatype KeyCodes = KeyCodes(ctrlF: dword, ctrlAdd: dword, ctrlPlus: dword, ctrlSubtract: dword,
                               ctrlMinus: dword, ctrlC: dword, ctrlS: dword)

  /** The key codes `Key` reacts to, in the order it tests them. */
  function Shortcuts(k: KeyCodes): seq<dword>
  {
    [k.ctrlF, k.ctrlAdd, k.ctrlPlus, k.ctrlSubtract, k.ctrlMinus, k.ctrlC, k.ctrlS]
  }

  /** No two shortcuts share a code: the U++ key constants are pairwise
      distinct. */
  predicate Distinct(k: KeyCodes)
  {
    var s := Shortcuts(k);
    forall i, j :: 0 <= i < j < |s| ==> s[i] != s[j]
  }

  /** The step the zoom shortcuts ask of the trackball. */
  const ZoomStep: int := 200

  /** A canvas operation a shortcut or menu entry starts. `SaveImage(None)`
      is `SaveToFile(Null)`, which opens the file dialog. */
  datatype Command = FitToData | Zoom(delta: int) | CopyToClipboard | SaveImage(fileName: Option<FilePath>)

  /** The command a key starts, if any, and the `bool` that `Key` returns. */
  datatype KeyResult = KeyResult(handled: bool, command: Option<Command>)

  function Key(codes: KeyCodes, key: dword): (r: KeyResult)
    ensures r.handled <==> r.command.Some?
    ensures r.handled <==> key in Shortcuts(codes)
    ensures key == codes.ctrlF ==> r.command == Some(FitToData)
    ensures r.command.Some? && r.command.value.Zoom? ==>
              r.command.value.delta == ZoomStep || r.command.value.delta == -ZoomStep
  {
    if key == codes.ctrlF then KeyResult(true, Some(FitToData))
    else if key == codes.ctrlAdd || key == codes.ctrlPlus then KeyResult(true, Some(Zoom(ZoomStep)))
    else if key == codes.ctrlSubtract || key == codes.ctrlMinus then KeyResult(true, Some(Zoom(-ZoomStep)))
    else if key == codes.ctrlC then KeyResult(true, Some(CopyToClipboard))
    else if key == codes.ctrlS then KeyResult(true, Some(SaveImage(None)))
    else KeyResult(false, None)
  }

  /** With distinct codes every shortcut starts exactly its own command. */
  lemma KeyDispatchExact(codes: KeyCodes)
    requires Distinct(codes)
    ensures Key(codes, codes.ctrlF).command == Some(FitToData)
    ensures Key(codes, codes.ctrlAdd).command == Some(Zoom(200))
    ensures Key(codes, codes.ctrlPlus).command == Some(Zoom(200))
    ensures Key(codes, codes.ctrlSubtract).command == Some(Zoom(-200))
    ensures Key(codes, codes.ctrlMinus).command == Some(Zoom(-200))
    ensures Key(codes, codes.ctrlC).command == Some(CopyToClipboard)
    ensures Key(codes, codes.ctrlS).command == Some(SaveImage(None))
  {
    var s := Shortcuts(codes);
    assert s[0] != s[1] && s[0] != s[2] && s[0] != s[3] && s[0] != s[4] && s[0] != s[5] && s[0] != s[6];
    assert s[1] != s[3] && s[1] != s[4] && s[1] != s[5] && s[1] != s[6];
    assert s[2] != s[3] && s[2] != s[4] && s[2] != s[5] && s[2] != s[6];
    assert s[3] != s[5] && s[3] != s[6] && s[4] != s[5] && s[4] != s[6] && s[5] != s[6];
  }

  /** A context-menu entry with an accelerator: the key, what it runs, and
      whether the menu runs it through `ExecuteGL`, which makes the GL
      context current first. `Key` never does: its copy and save run bare. */
  datatype MenuEntry = MenuEntry(accel: dword, command: Command, viaExecuteGL: bool)

  /** The five accelerated entries of `ContextMenu`, in menu order. */
  function MenuShortcuts(codes: KeyCodes): (r: seq<MenuEntry>)
    ensures |r| == 5
    ensures (set i | 0 <= i < |r| :: r[i].command)
         == {FitToData, Zoom(ZoomStep), Zoom(-ZoomStep), CopyToClipboard, SaveImage(None)}
    ensures forall i :: 0 <= i < |r| ==> r[i].accel in Shortcuts(codes)
    ensures forall i :: 0 <= i < |r| ==>
              (r[i].viaExecuteGL <==> r[i].command.CopyToClipboard? || r[i].command.SaveImage?)
    ensures Distinct(codes) ==> forall i :: 0 <= i < |r| ==> Key(codes, r[i].accel).command == Some(r[i].command)
  {
    var r := [ MenuEntry(codes.ctrlF, FitToData, false),
               MenuEntry(codes.ctrlAdd, Zoom(ZoomStep), false),
               MenuEntry(codes.ctrlSubtract, Zoom(-ZoomStep), false),
               MenuEntry(codes.ctrlC, CopyToClipboard, true),
               MenuEntry(codes.ctrlS, SaveImage(None), true) ];
    assert r[0].command == FitToData && r[1].command == Zoom(ZoomStep) && r[2].command == Zoom(-ZoomStep);
    assert r[3].command == CopyToClipboard && r[4].command == SaveImage(None);
    if Distinct(codes) then KeyDispatchExact(codes); r else r
  }

  /** The keyboard handler and the context menu start the same command for
      each accelerator. They differ only in how the two readback commands
      run: the menu wraps exactly the entries whose key makes `Key` copy or
      save in `ExecuteGL`, while `Key` runs those commands directly. */
  lemma MenuAgreesWithKey(codes: KeyCodes)
    requires Distinct(codes)
    ensures forall i :: 0 <= i < |MenuShortcuts(codes)| ==>
              Key(codes, MenuShortcuts(codes)[i].accel).command == Some(MenuShortcuts(codes)[i].command)
    ensures forall i :: 0 <= i < |MenuShortcuts(codes)| ==>
              (MenuShortcuts(codes)[i].viaExecuteGL <==>
                 var c := Key(codes, MenuShortcuts(codes)[i].accel).command.value;
                 c.CopyToClipboard? || c.SaveImage?)
  {
    KeyDispatchExact(codes);
  }
}

=== FILE: readback.dfy ===
/**
 Post-processing of the framebuffer readback (`GLCanvas::GetImage`).

 `glReadPixels` fills a `cy x cx` buffer bottom row first; the canvas flips
 it vertically in place, swapping row `i` with row `cy-1-i` through a
 temporary row for every `i < cy/2`, and then forces every alpha channel to
 255. A read error (anything but `GL_NO_ERROR` from `glGetError`) gives a
 null image and skips both passes. The GL calls are an input here: the
 pixels they produced and whether an error was reported.
 */
module Readback {
  import opened Wrappers

  newtype byte = x: int | 0 <= x < 256

  /** One `RGBA` pixel of an `ImageBuffer`. */
  datatype Pixel = Pixel(r: byte, g: byte, b: byte, a: byte)

  type Row = seq<Pixel>

  /** What `glReadPixels` followed by `glGetError` delivered. */
  datatype ReadPixels = ReadPixels(rows: seq<Row>, error: bool)

  /** `rows` is a buffer of `cy` rows of `cx` pixels each. */
  predicate IsGrid(rows: seq<Row>, cx: nat, cy: nat)
  {
    |rows| == cy && forall y :: 0 <= y < cy ==> |rows[y]| == cx
  }

  /** A pixel after the alpha pass. */
  function Opaque(p: Pixel): (q: Pixel)
    ensures q.a == 255
    ensures q.r == p.r && q.g == p.g && q.b == p.b
  {
    p.(a := 255)
  }

  /** Reference definition of a vertical flip, independent of the swap loop. */
  function Reverse<T>(s: seq<T>): (r: seq<T>)
    ensures |r| == |s|
    ensures forall i :: 0 <= i < |s| ==> r[i] == s[|s| - 1 - i]
    decreases |s|
  {
    if |s| == 0 then [] else Reverse(s[1..]) + [s[0]]
  }

  /** Flipping twice gives the buffer back. */
  lemma ReverseInvolution<T>(s: seq<T>)
    ensures Reverse(Reverse(s)) == s
  {
  }

  /** Any buffer that satisfies the swap loop's contract is the reference
      flip, so `FlipRows` applied twice gives the readback back. */
  lemma FlipIsReverse<T>(rows: seq<T>, out: seq<T>)
    requires |out| == |rows|
    requires forall y :: 0 <= y < |rows| ==> out[y] == rows[|rows| - 1 - y]
    ensures out == Reverse(rows)
    ensures Reverse(out) == rows
  {
  }

  /** The row-swap loop of `GetImage` (through a temporary row), on a copy
      of the buffer. */
  method FlipRows(rows: seq<Row>) returns (out: seq<Row>)
    ensures |out| == |rows|
    ensures forall y :: 0 <= y < |rows| ==> out[y] == rows[|rows| - 1 - y]
    ensures |rows| % 2 == 1 ==> out[|rows| / 2] == rows[|rows| / 2]
  {
    var cy := |rows|;
    out := rows;
    var i := 0;
    while i < cy / 2
      invariant 0 <= i <= cy / 2
      invariant |out| == cy
      invariant forall k :: 0 <= k < i ==> out[k] == rows[cy - 1 - k] && out[cy - 1 - k] == rows[k]
      invariant forall k :: i <= k < cy - i ==> out[k] == rows[k]
    {
      var temp := out[i];
      out := out[i := out[cy - 1 - i]];
      out := out[cy - 1 - i := temp];
      i := i + 1;
    }
  }

  /** The alpha pass of `GetImage`: `cx` pixels of each of the rows. */
  method SetOpaque(rows: seq<Row>, cx: nat) returns (out: seq<Row>)
    requires IsGrid(rows, cx, |rows|)
    ensures IsGrid(out, cx, |rows|)
    ensures forall y, x :: 0 <= y < |rows| && 0 <= x < cx ==> out[y][x] == Opaque(rows[y][x])
  {
    out := rows;
    var y := 0;
    while y < |rows|
      invariant 0 <= y <= |rows|
      invariant IsGrid(out, cx, |rows|)
      invariant forall j, x :: 0 <= j < y && 0 <= x < cx ==> out[j][x] == Opaque(rows[j][x])
      invariant forall j :: y <= j < |rows| ==> out[j] == rows[j]
    {
      var row := out[y];
      var x := 0;
      while x < cx
        invariant 0 <= x <= cx
        invariant |row| == cx
        invariant forall i :: 0 <= i < x ==> row[i] == Opaque(rows[y][i])
        invariant forall i :: x <= i < cx ==> row[i] == rows[y][i]
      {
        row := row[x := row[x].(a := 255)];
        x := x + 1;
      }
      out := out[y := row];
      y := y + 1;
    }
  }

  /** U++ reads an `Image` of size 0 x 0 as `Null`, so its callers cannot
      tell an empty canvas from a failed read. */
  predicate IsNullSize(cx: nat, cy: nat)
  {
    cx == 0 && cy == 0
  }

  /** `GetImage`: null on a read error or for an empty canvas, otherwise
      the flipped, opaque image of the same size. */
  method GetImage(cx: nat, cy: nat, read: ReadPixels) returns (img: Option<seq<Row>>)
    requires IsGrid(read.rows, cx, cy)
    ensures img.None? <==> read.error || IsNullSize(cx, cy)
    ensures img.Some? ==> IsGrid(img.value, cx, cy)
    ensures img.Some? ==> forall y, x :: 0 <= y < cy && 0 <= x < cx ==>
              img.value[y][x] == Opaque(read.rows[cy - 1 - y][x])
  {
    if read.error {
      return None;
    }
    if IsNullSize(cx, cy) {
      return None;
    }
    var flipped := FlipRows(read.rows);
    var solid := SetOpaque(flipped, cx);
    img := Some(solid);
  }
}

=== FILE: save_image.dfy ===
/**
 Saving and copying the canvas image (`SaveToFile`, `SaveToClipboard`).

 The readback result, the file dialog's answer and the encoders are
 collaborators: the image arrives as an input (null or not), the dialog's
 outcome is an input (cancelled or accepted with a file), and the result
 records which dialog was shown, which encoder was chosen for which file,
 and the new value of the canvas field `defaultFileName`.
 */
module SaveImage {
  import opened Wrappers
  import opened ImageFormat
  import Readback

  type Image = seq<Readback.Row>

  /** How the save dialog is set up before it is shown. */
  datatype DialogSetup = DialogSetup(initial: FilePath, defaultExt: string, activeType: nat, activeDir: string)

  /** The user's answer to the save dialog. */
  datatype Response = Cancel | Accept(chosen: FilePath)

  /** What `SaveToFile` ends up doing. `NoImage` and `NotSaved` are the two
      early returns with their message boxes; `Dispatched` hands the image to
      an encoder, or reports "format not found" when the encoder is
      `FormatNotFound`. */
  datatype SaveEffect = NoImage | NotSaved | Dispatched(encoder: Encoder, file: FilePath)

  datatype SaveResult = SaveResult(dialog: Option<DialogSetup>, effect: SaveEffect, defaultFileName: Option<FilePath>)

  /** The name the dialog proposes when nothing was saved before. */
  const MeshView := FilePath("", "Mesh view", Jpg)

  /** How `SaveToFile` prepares the dialog: it proposes the last saved
      name (or "Mesh view.jpg" when there is none), that name's extension
      selects the active type, and its folder the active directory. */
  function SetupDialog(defaultFileName: Option<FilePath>): (d: DialogSetup)
    ensures !IsNullName(defaultFileName) ==>
              d.initial == defaultFileName.value && d.activeDir == defaultFileName.value.folder
    ensures IsNullName(defaultFileName) ==> d.initial == MeshView && d.activeDir == ""
    ensures d.defaultExt == d.initial.ext
    ensures d.activeType == ExtTypeIndex(d.initial.ext)
    ensures d.activeType < DialogTypeCount
    ensures d.initial.ext in {Jpg, Png, Pdf} ==> TypeIndexExt(d.activeType) == Some(d.initial.ext)
  {
    var initial := if IsNullName(defaultFileName) then MeshView else defaultFileName.value;
    var dir := if IsNullName(defaultFileName) then "" else defaultFileName.value.folder;
    DialogSetup(initial, initial.ext, ExtTypeIndex(initial.ext), dir)
  }

  /** `SaveToFile(fileName)`: a `Null` (missing or empty) `fileName` opens
      the dialog, `response` is what the user does in it (ignored when no
      dialog is shown). */
  function SaveToFile(image: Option<Image>, fileName: Option<FilePath>,
                      defaultFileName: Option<FilePath>, response: Response): (r: SaveResult)
    ensures image.None? ==> r == SaveResult(None, NoImage, defaultFileName)
    ensures r.dialog.Some? <==> image.Some? && IsNullName(fileName)
    ensures r.dialog.Some? ==> r.dialog.value == SetupDialog(defaultFileName)
    ensures r.effect.NotSaved? <==> r.dialog.Some? && response.Cancel?
    ensures r.effect.NoImage? || r.effect.NotSaved? ==> r.defaultFileName == defaultFileName
    ensures image.Some? && !IsNullName(fileName) ==>
              r.effect == Dispatched(EncoderFor(fileName.value.ext), fileName.value) &&
              r.defaultFileName == fileName
    ensures image.Some? && IsNullName(fileName) && response.Accept? ==>
              r.effect == Dispatched(EncoderFor(response.chosen.ext), response.chosen) &&
              r.defaultFileName == Some(response.chosen)
    ensures r.effect.Dispatched? ==>
              r.defaultFileName == Some(r.effect.file) && r.effect.encoder == EncoderFor(r.effect.file.ext)
  {
    if image.None? then
      SaveResult(None, NoImage, defaultFileName)
    else if !IsNullName(fileName) then
      var f := fileName.value;
      SaveResult(None, Dispatched(EncoderFor(f.ext), f), Some(f))
    else
      var dialog := SetupDialog(defaultFileName);
      match response
      case Cancel => SaveResult(Some(dialog), NotSaved, defaultFileName)
      case Accept(chosen) =>
        SaveResult(Some(dialog), Dispatched(EncoderFor(chosen.ext), chosen), Some(chosen))
  }

  /** An empty name is `Null` too: it opens the dialog like a missing one. */
  lemma EmptyNameOpensDialog(image: Image, defaultFileName: Option<FilePath>, response: Response)
    ensures SaveToFile(Some(image), Some(EmptyPath), defaultFileName, response)
         == SaveToFile(Some(image), None, defaultFileName, response)
  {
  }

  /** After a save that reached an encoder, the next `SaveToFile(Null)`
      proposes the file just written. */
  lemma SaveRemembersName(image: Option<Image>, fileName: Option<FilePath>,
                          defaultFileName: Option<FilePath>, response: Response,
                          next: Image, nextResponse: Response)
    requires SaveToFile(image, fileName, defaultFileName, response).effect.Dispatched?
    ensures var first := SaveToFile(image, fileName, defaultFileName, response);
            var second := SaveToFile(Some(next), None, first.defaultFileName, nextResponse);
            second.dialog.Some? &&
            (first.effect.file != EmptyPath ==> second.dialog.value.initial == first.effect.file)
  {
  }

  /** A saved `.jpeg` name comes back in the dialog under the jpeg type, yet
      accepting it unchanged does not write anything: no encoder takes
      `.jpeg`. */
  lemma JpegDefaultIsNotWritten(image: Image, saved: FilePath)
    requires saved.ext == Jpeg
    ensures var r := SaveToFile(Some(image), None, Some(saved), Accept(saved));
            r.dialog.Some? && r.dialog.value.activeType == 0 &&
            r.effect == Dispatched(FormatNotFound(Jpeg), saved)
  {
  }

  /** What `SaveToClipboard` does. */
  datatype ClipboardEffect = ClipboardNoImage | WroteClipboard(image: Image)

  /** `SaveToClipboard`: a null image only raises a message; otherwise the
      image itself goes to the clipboard. */
  function SaveToClipboard(image: Option<Image>): (r: ClipboardEffect)
    ensures r.ClipboardNoImage? <==> image.None?
    ensures r.WroteClipboard? ==> r.image == image.value
  {
    match image
    case None => ClipboardNoImage
    case Some(img) => WroteClipboard(img)
  }

  /** Copying and saving give up on the same readbacks: the clipboard
      refuses exactly the images `SaveToFile` refuses, whatever name and
      dialog answer the save would have used. */
  lemma ClipboardAgreesWithSave(image: Option<Image>, fileName: Option<FilePath>,
                                defaultFileName: Option<FilePath>, response: Response)
    ensures SaveToClipboard(image).ClipboardNoImage?
        <==> SaveToFile(image, fileName, defaultFileName, response).effect.NoImage?
  {
  }
}

=== FILE: view_toggle.dfy ===
/**
 Axis-view requests of the canvas (`GLCanvas::View`).

 The canvas remembers the last requested axis combination and a `sign`
 toggle. Repeating the same request flips `sign`, any other request resets
 it to `true`. The request itself is forwarded to the trackball's
 `ViewXYZ(x, y, z)` without `sign`: the sign argument is commented out at the
 call site, so what reaches the trackball never depends on the toggle.
 */
module AxisView {

  /** Which axes a view request includes (the three `bool` arguments). */
  datatype Axes = Axes(x: bool, y: bool, z: bool)

  /** The canvas fields `lastx`, `lasty`, `lastz` and `sign`. Their initial
      values come from a header that is not part of this model, so every
      result below holds for an arbitrary starting memory. */
  datatype AxisMemory = AxisMemory(last: Axes, sign: bool)

  /** One `View` call: the memory afterwards and the arguments handed to
      `trackBall.ViewXYZ`. */
  datatype ViewStep = ViewStep(memory: AxisMemory, forwarded: Axes)

  /** The four entries of the context menu: X, Y, Z and isometric views. */
  const ViewXAxis := Axes(false, true, true)
  const ViewYAxis := Axes(true, false, true)
  const ViewZAxis := Axes(true, true, false)
  const ViewIsometric := Axes(true, true, true)

  function View(m: AxisMemory, req: Axes): (r: ViewStep)
    ensures r.memory.last == req
    ensures r.forwarded == req
    ensures req == m.last ==> r.memory.sign == !m.sign
    ensures req != m.last ==> r.memory.sign
  {
    var sign := if req == m.last then !m.sign else true;
    ViewStep(AxisMemory(req, sign), req)
  }

  /** What reaches the trackball is the same whatever the canvas remembers:
      the `sign` toggle is dead at the `ViewXYZ` interface. */
  lemma ForwardIgnoresMemory(m1: AxisMemory, m2: AxisMemory, req: Axes)
    ensures View(m1, req).forwarded == View(m2, req).forwarded
  {
  }

  /** Two identical requests right after each other flip `sign` twice when
      the first one already repeats the remembered request: the memory
      returns to where it was. */
  lemma RepeatTwiceRestores(m: AxisMemory)
    ensures View(View(m, m.last).memory, m.last).memory == m
  {
  }

  /** A repeated request is meant to show the mirrored view, but the
      trackball cannot tell the two calls apart: both forward the same
      arguments although the remembered `sign` differs. */
  lemma RepeatedRequestForwardsSameView(m: AxisMemory, req: Axes)
    ensures var s1 := View(m, req);
            var s2 := View(s1.memory, req);
            s1.forwarded == s2.forwarded && s1.memory.sign != s2.memory.sign
  {
  }

  /** The sequence X, X-and-Y, X: the differing request in the middle resets
      the toggle, so the third call leaves `sign` as the first one did when
      the first one was not a repeat. */
  lemma DifferingRequestResets(m: AxisMemory, a: Axes, b: Axes)
    requires a != b
    ensures var s1 := View(m, a);
            var s3 := View(View(s1.memory, b).memory, a);
            s3.memory.sign && s3.forwarded == s1.forwarded
  {
  }

  /** The view entries of the context menu, in menu order: the view along
      an axis leaves that axis out, the isometric view includes all three. */
  function MenuViews(): (r: seq<Axes>)
    ensures |r| == 4
    ensures forall i :: 0 <= i < 3 ==> (!r[i].x <==> i == 0) && (!r[i].y <==> i == 1) && (!r[i].z <==> i == 2)
    ensures r[3].x && r[3].y && r[3].z
    ensures forall i, j :: 0 <= i < j < |r| ==> r[i] != r[j]
  {
    [ViewXAxis, ViewYAxis, ViewZAxis, ViewIsometric]
  }

  /** Choosing menu view `i` and then menu view `j`: a different entry
      resets `sign` to true, the same entry again flips it, and in both
      cases the trackball is asked for entry `j` alone. */
  lemma MenuViewsToggle(m: AxisMemory, i: nat, j: nat)
    requires i < |MenuViews()| && j < |MenuViews()|
    ensures var first := View(m, MenuViews()[i]);
            var second := View(first.memory, MenuViews()[j]);
            second.forwarded == MenuViews()[j] &&
            (i != j ==> second.memory.sign) &&
            (i == j ==> second.memory.sign == !first.memory.sign)
  {
  }

  /** `k` copies of the same request. */
  function Repeat(req: Axes, k: nat): (r: seq<Axes>)
    ensures |r| == k
    ensures forall i :: 0 <= i < k ==> r[i] == req
  {
    seq(k, _ => req)
  }

  /** A run of `View` calls: the final memory and the log of `ViewXYZ`
      calls, oldest first. */
  function Replay(m: AxisMemory, reqs: seq<Axes>): (AxisMemory, seq<Axes>)
    decreases |reqs|
  {
    if |reqs| == 0 then (m, [])
    else
      var before := Replay(m, reqs[..|reqs| - 1]);
      var step := View(before.0, reqs[|reqs| - 1]);
      (step.memory, before.1 + [step.forwarded])
  }

  /** Whatever the toggle does, the trackball sees exactly the requests, in
      order, and the memory ends on the last of them. */
  lemma {:induction false} ReplayForwardsRequests(m: AxisMemory, reqs: seq<Axes>)
    ensures Replay(m, reqs).1 == reqs
    ensures |reqs| > 0 ==> Replay(m, reqs).0.last == reqs[|reqs| - 1]
    ensures |reqs| == 0 ==> Replay(m, reqs).0 == m
    decreases |reqs|
  {
    if |reqs| > 0 {
      var init := reqs[..|reqs| - 1];
      ReplayForwardsRequests(m, init);
      assert init + [reqs[|reqs| - 1]] == reqs;
    }
  }

  /** After `k >= 1` identical requests, `sign` records the parity of the
      run: starting from a different remembered request it is `true` after
      an odd number of calls; starting from the same one it is the old sign
      flipped `k` times. */
  lemma {:induction false} RepeatToggles(m: AxisMemory, req: Axes, k: nat)
    requires k >= 1
    ensures Replay(m, Repeat(req, k)).0.last == req
    ensures m.last != req ==> Replay(m, Repeat(req, k)).0.sign == (k % 2 == 1)
    ensures m.last == req ==> Replay(m, Repeat(req, k)).0.sign == (m.sign == (k % 2 == 0))
    decreases k
  {
    var reqs := Repeat(req, k);
    assert reqs[..k - 1] == Repeat(req, k - 1);
    if k > 1 {
      RepeatToggles(m, req, k - 1);
    } else {
      assert Replay(m, Repeat(req, 0)).0 == m;
    }
  }
}

=== FILE: wrappers.dfy ===
/** The optional value shared by the other modules. */
module Wrappers {

  /** `None` stands for a U++ `Null` value (a null image, an empty file name). */
  datatype Option<+T> = None | Some(value: T)
}
